=== FILE: README.md ===
# Fractions: a verified model of `fractions.py`

This project models the fraction type of the "Fractions" program in
kbristow/Programmers-Ideas (`Numbers/Fractions_11/Python/fractions.py`, Python 2).
That file has four parts:

- `convert_fraction_str` turns text such as `"3/4"` or `"1 2/3"` into a `Fraction`.
- `get_gcd` and `get_lcm` are linear searches for the greatest common divisor
  and the least common multiple of two integer magnitudes.
- `convert_to_lcm` rescales two fractions in place to a common denominator.
- The class `Fraction` holds a numerator and a denominator. It reduces itself to
  lowest terms on construction and implements `+`, `-`, `*` and `/`.

Modules, one per concern:

| file | module | contents |
|---|---|---|
| `wrappers.dfy` | `Wrappers` | `Option` and `Result` |
| `divisibility.dfy` | `Divisibility` | `Abs`, `Min`, `Max`, `Divides` and small facts about them |
| `number_theory.dfy` | `NumberTheory` | reference `Gcd` (Euclid) and `Lcm`; the two search loops `GetGcd` and `GetLcm`, proved to compute them |
| `fractions.dfy` | `Fractions` | `Fraction`, its value as a rational, reduction, the four operations, `convert_to_lcm`, and the algebraic laws |
| `text.dfy` | `Text` | `str.split`, `int()` and `str()` on integers |
| `parser.dfy` | `Parser` | `convert_fraction_str` and `__str__`, with what they accept, reject and round-trip |
| `scenarios.dfy` | `Scenarios` | worked inputs derived from the general lemmas |

Error behaviour is modelled explicitly.

- The gcd and lcm searches take a remainder modulo the smaller magnitude, so
  any zero field raises Python's `ZeroDivisionError`. Here that is
  `Failure(ZeroDivision)`. It is the only failure the model represents. The
  `OverflowError` of the float conversion is not modelled; see the Left out
  section below.
- The parser returns `Success(None)` where the original returns `None`. That
  happens for the wrong number of `/`, or for an integer piece that `int()`
  rejects with a `ValueError`.
- The parser catches only `ValueError`. A zero numerator or a zero
  denominator therefore reaches the constructor, and its
  `ZeroDivisionError` escapes the parser as `Failure(ZeroDivision)`.

What the code does at its edges, as the model states it:

- **A zero side escapes the parser.** The docstring of
  `convert_fraction_str` (fractions.py:7-9) promises `None` for text that is
  not a valid fraction. `"3/0"` and `"0/5"` raise `ZeroDivisionError`
  instead (`Parser.ParseZeroEscapes`, `Scenarios.ZeroDenominatorRaises`).
- **Zero is not a fraction.** Every zero field makes the gcd search divide
  by zero. So `Fraction(0, 5)` fails, and so do `1/2 - 1/2` and
  `1/2 + -1/2`, whose result would have numerator 0.
- **Three or more pieces before `/`.** The code reads only the last
  space-separated piece as the numerator and ignores the others
  (`Parser.ParseIgnoresLeadingPieces`).
- **Sign placement.** Reduction divides both fields by a positive gcd, so
  each field keeps its sign: `Fraction(1, -2)` stays `1/-2`.
  - A product or quotient has a positive denominator exactly when the
    product of the two factors it multiplies into the denominator is positive.
  - For two distinct operand objects, a sum or difference is built over the
    positive lcm, so its denominator is positive.
  - Adding or subtracting also rescales and re-reduces the operands in place.
    That moves a negative denominator's sign onto the numerator. The model
    returns those updated operands as `left` and `right` of a `Combined` value
    (`Fractions.CombineRestoresOperands`).
- **Negative whole part.** `"-1 2/3"` gives `2 + (-1) * 3 = -1`, i.e. `-1/3`.
  The whole part is multiplied by the denominator and added to the numerator
  exactly as written (`Parser.ParseMixedNumber`).

## Model

| member | source | states |
|---|---|---|
| NumberTheory.Gcd | Numbers/Fractions_11/Python/fractions.py:56-74 | the gcd of two nonzero integers is a positive common divisor of their magnitudes, at most the smaller magnitude, and every common divisor divides it and is at most it |
| NumberTheory.GetGcd | Numbers/Fractions_11/Python/fractions.py:56-74 | the repository's search (start at the smaller magnitude, jump to half, count down) returns exactly `Gcd`, between 1 and the smaller magnitude |
| NumberTheory.CountDown | Numbers/Fractions_11/Python/fractions.py:70-72 | counting down from a candidate above which no common divisor lies stops at 1 or at a common divisor, with none above it |
| NumberTheory.GcdSearchJump | Numbers/Fractions_11/Python/fractions.py:66-68 | a common divisor below the smaller magnitude is at most half of it, so the jump to half skips no candidate |
| NumberTheory.JumpSkipsNothing | Numbers/Fractions_11/Python/fractions.py:63-68 | when the smaller magnitude is not a common divisor, no common divisor lies above half of it |
| NumberTheory.GcdSymmetric | Numbers/Fractions_11/Python/fractions.py:59-63 | the gcd ignores argument order and the signs of the arguments |
| NumberTheory.Lcm | Numbers/Fractions_11/Python/fractions.py:38-54 | the lcm is a positive common multiple of both magnitudes that divides every common multiple, and lcm times gcd equals the product of the magnitudes |
| NumberTheory.GetLcm | Numbers/Fractions_11/Python/fractions.py:38-54 | the repository's search through multiples of the larger magnitude terminates and returns exactly `Lcm`, positive and divisible by both magnitudes |
| NumberTheory.SearchStep | Numbers/Fractions_11/Python/fractions.py:50-52 | a candidate not divisible by the smaller magnitude is below their product, and no common multiple lies below the next candidate |
| NumberTheory.LcmSymmetric | Numbers/Fractions_11/Python/fractions.py:42-46 | the lcm ignores argument order and the signs of the arguments |
| Fractions.ToLowestTerms | Numbers/Fractions_11/Python/fractions.py:108-111 | reduction fails exactly when a field is zero; otherwise it is in lowest terms, has the same rational value, and keeps the sign of each field |
| Fractions.NewFraction | Numbers/Fractions_11/Python/fractions.py:100-106 | construction fails exactly on a zero field; otherwise it yields a fraction in lowest terms with the value numerator/denominator and each field's sign kept |
| Fractions.LowestTermsUnique | Numbers/Fractions_11/Python/fractions.py:108-111 | two fractions in lowest terms with the same value and the same denominator sign are the same pair, so reduction is canonical |
| Fractions.NewFractionIdempotent | Numbers/Fractions_11/Python/fractions.py:100-111 | constructing from a fraction already in lowest terms gives it back unchanged |
| Fractions.NewFractionScaled | Numbers/Fractions_11/Python/fractions.py:100-111 | construction ignores a common positive factor of numerator and denominator |
| Fractions.Scale | Numbers/Fractions_11/Python/fractions.py:157-164 | multiplying both fields by a nonzero integer keeps the value, a zero factor zeroes the denominator, a positive factor keeps both signs, and the denominator becomes the old one times the factor |
| Fractions.ScaleThenReduce | Numbers/Fractions_11/Python/fractions.py:157-164 | scaling a reduced fraction by a positive factor and reducing again gives the same pair back |
| Fractions.MulFraction | Numbers/Fractions_11/Python/fractions.py:123-131 | the product succeeds exactly when all four fields are nonzero, and is then in lowest terms with value the product of the values, its denominator positive exactly when the product of the two denominators is |
| Fractions.MulCommutative | Numbers/Fractions_11/Python/fractions.py:123-131 | multiplication gives the same outcome in either order |
| Fractions.MulIdentity | Numbers/Fractions_11/Python/fractions.py:123-131 | multiplying a reduced fraction by 1/1 gives it back |
| Fractions.DivFraction | Numbers/Fractions_11/Python/fractions.py:113-121 | the quotient fails with ZeroDivision when the divisor's numerator is zero, succeeds exactly when all four fields are nonzero, and is then in lowest terms with value the quotient of the values, its denominator positive exactly when the first denominator times the divisor's numerator is |
| Fractions.MulThenDivide | Numbers/Fractions_11/Python/fractions.py:113-131 | multiplying two reduced fractions and dividing by the second succeeds and gives back the first one's value |
| Fractions.MulThenDivideExact | Numbers/Fractions_11/Python/fractions.py:113-131 | when the divisor has a positive numerator and denominator, multiplying and dividing by it gives back the very same pair |
| Fractions.ConvertToLcm | Numbers/Fractions_11/Python/fractions.py:76-85 | both operands are rescaled to the lcm of their denominators with their values kept and zero numerators neither created nor removed; a zero denominator fails |
| Fractions.CombineOverLcm | Numbers/Fractions_11/Python/fractions.py:133-155 | add/subtract succeeds exactly when all fields are nonzero and the exact result is nonzero; the result is in lowest terms over a positive denominator with the exact sum or difference, and both operands come back reduced with their values and a positive denominator |
| Fractions.AddFraction | Numbers/Fractions_11/Python/fractions.py:133-143 | the sum succeeds exactly when all fields are nonzero and the values do not cancel, and is then reduced, over a positive denominator, with value the sum |
| Fractions.SubFraction | Numbers/Fractions_11/Python/fractions.py:145-155 | the difference succeeds exactly when all fields are nonzero and the values differ, and is then reduced, over a positive denominator, with value the difference |
| Fractions.CombineRestoresOperands | Numbers/Fractions_11/Python/fractions.py:139-142 | after the in-place rescaling and re-reduction each reduced operand is its old pair with the sign moved off a negative denominator |
| Fractions.AddCommutative | Numbers/Fractions_11/Python/fractions.py:133-143 | addition succeeds in one order exactly when it does in the other, with the same result |
| Fractions.AddThenSubtract | Numbers/Fractions_11/Python/fractions.py:133-155 | subtracting the second operand from a sum gives back the first operand, sign moved to the numerator, and leaves the operands as stated |
| Text.Split | Numbers/Fractions_11/Python/fractions.py:12 | `str.split` yields one more piece than there are separators, and no piece contains the separator |
| Text.JoinSplit | Numbers/Fractions_11/Python/fractions.py:12 | joining the pieces of a split with the separator gives back the string |
| Text.SplitJoin | Numbers/Fractions_11/Python/fractions.py:20 | splitting a join of separator-free pieces gives back the pieces |
| Text.ParseInt | Numbers/Fractions_11/Python/fractions.py:17 | `int()` accepts exactly an optional sign and digits inside whitespace, so accepted text holds no other character; the value read is that of the digits left after stripping whitespace, negated after a `-` and unchanged after a `+` |
| Text.NatToString | Numbers/Fractions_11/Python/fractions.py:196-197 | `str` of a natural number is a nonempty run of decimal digits denoting it |
| Text.IntToString | Numbers/Fractions_11/Python/fractions.py:196-197 | `str` of an integer is nonempty, has no `/`, no space and no surrounding whitespace |
| Text.ParseIntToString | Numbers/Fractions_11/Python/fractions.py:17 | `int()` reads back exactly the integer `str` wrote |
| Parser.Construct | Numbers/Fractions_11/Python/fractions.py:31 | handing the parsed integers to the constructor fails exactly when one is zero, and otherwise yields a reduced fraction of the same value whose numerator and denominator each keep the sign of the integer read |
| Parser.ConvertFractionStr | Numbers/Fractions_11/Python/fractions.py:1-35 | text with other than one `/` is not a fraction; a fraction returned is in lowest terms; the parser fails exactly when there is one `/`, both sides read as integers, and the denominator or the numerator built from them is zero |
| Parser.ReadNumerator | Numbers/Fractions_11/Python/fractions.py:20-29 | a numerator is read only when the last space-separated piece is an integer; with other than two pieces it is exactly that piece; with two pieces it is read exactly when both are integers, and its value over the denominator is the whole part plus the last piece over the denominator |
| Parser.ReadSides | Numbers/Fractions_11/Python/fractions.py:16-33 | an unreadable denominator gives "not a fraction"; reading fails exactly when both sides read and one of them is zero; a fraction returned is reduced, has the value of the numerator read over the denominator read, and each of its fields has the sign of the integer read for it |
| Parser.Format | Numbers/Fractions_11/Python/fractions.py:196-197 | `__str__` writes exactly one `/`, and splitting on it gives the `str` of the numerator and of the denominator |
| Parser.ParseSimpleFraction | Numbers/Fractions_11/Python/fractions.py:12-31 | `"n/d"` with integer sides is the constructor applied to n and d |
| Parser.ParseMixedNumber | Numbers/Fractions_11/Python/fractions.py:26-29 | `"w n/d"` is the constructor applied to n + w*d and d, whose value is w + n/d |
| Parser.ParseIgnoresLeadingPieces | Numbers/Fractions_11/Python/fractions.py:20-24 | with three or more space-separated pieces before `/`, only the last one is read and the rest are ignored |
| Parser.ParseBadDenominator | Numbers/Fractions_11/Python/fractions.py:17 | a denominator `int()` rejects makes the text not a fraction |
| Parser.ParseBadNumerator | Numbers/Fractions_11/Python/fractions.py:24 | a numerator `int()` rejects makes the text not a fraction, whether it stands alone, follows a whole part or is the last of several pieces |
| Parser.ParseBadWholePart | Numbers/Fractions_11/Python/fractions.py:29 | a whole part `int()` rejects makes the text not a fraction |
| Parser.ParseZeroEscapes | Numbers/Fractions_11/Python/fractions.py:31-33 | a zero numerator or denominator is not caught by the parser: the constructor's ZeroDivision escapes |
| Parser.ParseFormat | Numbers/Fractions_11/Python/fractions.py:196-197 | parsing the `__str__` text of any fraction in lowest terms gives the same fraction back |
| Scenarios.ThreeQuarters | Numbers/Fractions_11/Python/fractions.py:12-31 | `"3/4"` parses to 3/4 |
| Scenarios.OneAndTwoThirds | Numbers/Fractions_11/Python/fractions.py:26-31 | `"1 2/3"` parses to 5/3 |
| Scenarios.FourEighths | Numbers/Fractions_11/Python/fractions.py:100-111 | `"4/8"` parses to 1/2 |
| Scenarios.LettersAreNotANumerator | Numbers/Fractions_11/Python/fractions.py:32-33 | `"abc/2"` is not a fraction |
| Scenarios.MixedLetterNumerator | Numbers/Fractions_11/Python/fractions.py:20-33 | `"1 x/2"` is not a fraction |
| Scenarios.TwoSlashes | Numbers/Fractions_11/Python/fractions.py:15 | `"1/2/3"` is not a fraction |
| Scenarios.ThreePiecesKeepTheLast | Numbers/Fractions_11/Python/fractions.py:20-24 | `"1 2 3/4"` parses to 3/4 |
| Scenarios.SpaceBeforeDenominator | Numbers/Fractions_11/Python/fractions.py:16-31 | `"3/ 4"` gives 3/4, since `int()` ignores the space |
| Scenarios.NegativeDenominatorText | Numbers/Fractions_11/Python/fractions.py:16-31 | `"2/-4"` gives 1/-2: the sign stays on the denominator |
| Scenarios.ZeroDenominatorRaises | Numbers/Fractions_11/Python/fractions.py:31-33 | `"3/0"` raises ZeroDivision instead of giving "not a fraction" |
| Scenarios.HalfPlusThird | Numbers/Fractions_11/Python/fractions.py:133-143 | 1/2 + 1/3 is 5/6 |
| Scenarios.HalfOverTwo | Numbers/Fractions_11/Python/fractions.py:113-121 | (1/2) / (2/1) is 1/4 |
| Scenarios.NegativeDenominatorOperand | Numbers/Fractions_11/Python/fractions.py:139-142 | 1/-2 + 1/3 is -1/6, and the left operand comes back as -1/2 |

## Left out

- `main.py`, the interactive loop, is not part of this model. It reads an operator and fraction strings, folds them with the chosen operator and prints the result. It is console I/O around the core.
- Floating point. In the original, `to_lowest_terms` multiplies both fields by the float `1.0/gcd`, so after construction the fields are floats such as `5.0` and `6.0`. The model keeps exact integers. The float effects it therefore does not reproduce:
  - `__str__` prints `5.0/6.0`, which `int()` then rejects, so the original's round trip fails where `Parser.ParseFormat` holds.
  - When add or subtract re-reduces its operands, `get_gcd` runs on float fields. There `gcd_candidate /= 2` is true division and the search can stop at a fraction. For example, 3/5 + 1/7 leaves the left operand as `6.0/10.0`. The model's `Fractions.CombineRestoresOperands` describes the integer behaviour.
  - A field too large for a float makes `self *= 1.0/gcd` raise `OverflowError` (fractions.py:110-111), for example a numerator of 400 digits. The parser does not catch it either. The model's integers are unbounded and never overflow.
  - Rounding, which hits small fields too. Multiplying by `1.0/gcd` is not exact even for gcd 49 (`49 * (1.0/49)` is `0.9999999999999999`), so `"49/98"` becomes `0.9999999999999999/1.9999999999999998`. The next constructor's `int()` (fractions.py:104) then truncates: `49/98 * 1/1` builds `Fraction(0.9999999999999999, 1.9999999999999998)`, whose numerator truncates to 0, and `get_gcd(0, 1)` raises `ZeroDivisionError`. The model's `Fractions.MulIdentity` gives 1/2. With such a denominator the float lcm search (fractions.py:45-52) can also fail to terminate: in `49/98 + 1/3` the candidates 3.0, 6.0, 9.0, … are tested modulo `1.9999999999999998`, and none of the first 10^15 of them leaves a remainder of exactly 0, while `Fractions.AddFraction` gives 5/6.
- Aliased operands. `f + f` passes one object as both operands. `convert_to_lcm` computes both multipliers first and then scales the same object twice, so for a negative denominator it ends where it started. `Fraction(1, -3) + itself` is `2/-3` in the original, but `Fractions.AddFraction` gives `-2/3`. The model treats the two operands as independent values.
- Operands after a failed addition or subtraction. When the combined numerator is 0, the constructor raises before the operands are reduced again (fractions.py:140-142), so the original leaves both operands rescaled to the common denominator. The model's `Failure` carries no operands.
- Python 2 `long`. `__imul__` scales only `int` and `float` multipliers, so a `long` multiplier would be silently ignored. The model's integers are unbounded and scaling always happens.
- `__imul__` returns `None`. The statement `self *= k` therefore rebinds a local name to `None`, after the scaling has already mutated the object. This changes no fraction's state, so `Fractions.Scale` models only the scaling.
- Operator dispatch. `__add__`, `__sub__`, `__mul__` and `__div__` return `None` unless the other operand is exactly a `Fraction`, and `__imul__` ignores other types. The model's operations are typed, so this case does not arise.
- `__repr__` is debug text with no behaviour to state.
- `int()` beyond an optional sign and ASCII digits inside surrounding whitespace. Python 2 also skips whitespace between the sign and the digits (`"- 3"`); `Text.ParseInt` rejects that.
- In-place mutation by `convert_to_lcm` and by add and subtract. The model is pure. It returns the updated operands as the `left` and `right` of a `Combined` value instead of changing its arguments.
- Fractions.MulThenDivide: states equality of values rather than of pairs. The quotient's denominator sign is that of the product of both operands' denominators and the divisor's numerator, so in general the pair comes back only up to sign. `Fractions.MulThenDivideExact` gives the pair itself for a divisor with both fields positive.

=== FILE: divisibility.dfy ===
/** Divisibility of integers by positive divisors, and the small facts about
    it that the number-theory and fraction proofs lean on. */
module Divisibility {

  function Abs(x: int): (r: nat)
    ensures r == x || r == -x
  {
    if x < 0 then -x else x
  }

  function Min(a: int, b: int): (m: int) { if a <= b then a else b }

  function Max(a: int, b: int): (m: int) { if a <= b then b else a }

  /** `d` is a positive divisor of `n`. */
  predicate Divides(d: int, n: int) {
    d > 0 && n % d == 0
  }

  /** Division with remainder has exactly one quotient and one remainder. */
  lemma DivModUnique(n: int, d: int, q: int, r: int)
    requires d > 0 && 0 <= r < d && n == d * q + r
    ensures n / d == q && n % d == r
  {
    var q' := n / d;
    var r' := n % d;
    assert n == d * q' + r';
    assert d * (q - q') == r' - r;
    assert q - q' >= 1 ==> d * (q - q') >= d * 1;
    assert q' - q >= 1 ==> d * (q' - q) >= d * 1;
  }

  lemma DividesMultiple(d: int, k: int)
    requires d > 0
    ensures Divides(d, d * k) && (d * k) / d == k
  {
    DivModUnique(d * k, d, k, 0);
  }

  lemma DividesWitness(d: int, n: int)
    requires Divides(d, n)
    ensures n == d * (n / d)
  {
  }

  lemma DividesLinear(d: int, x: int, y: int, a: int, b: int)
    requires Divides(d, x) && Divides(d, y)
    ensures Divides(d, a * x + b * y)
  {
    var p, q := x / d, y / d;
    DividesWitness(d, x);
    DividesWitness(d, y);
    assert a * x + b * y == d * (a * p + b * q) by {
      calc {
        a * x + b * y;
        a * (d * p) + b * (d * q);
        d * (a * p + b * q);
      }
    }
    DividesMultiple(d, a * p + b * q);
  }

  lemma DividesScaled(d: int, x: int, k: int)
    requires Divides(d, x)
    ensures Divides(d, x * k)
  {
    DividesLinear(d, x, x, k, 0);
  }

  lemma DividesAbs(d: int, x: int)
    requires d > 0
    ensures Divides(d, x) <==> Divides(d, Abs(x))
  {
    if Divides(d, x) {
      DividesScaled(d, x, -1);
    }
    if Divides(d, Abs(x)) {
      DividesScaled(d, Abs(x), -1);
    }
  }

  /** A positive divisor of a positive number is at most that number. */
  lemma DividesBound(d: int, n: int)
    requires Divides(d, n) && n > 0
    ensures d <= n
  {
    DividesWitness(d, n);
    var k := n / d;
    assert k <= 0 ==> d * k <= 0;
    assert k >= 1 ==> d * k >= d * 1;
  }

  /** Two positive numbers that divide each other are equal. */
  lemma DividesAntisymmetric(a: int, b: int)
    requires Divides(a, b) && Divides(b, a)
    ensures a == b
  {
    DividesBound(a, b);
    DividesBound(b, a);
  }

  /** Dividing an exact multiple keeps the sign and scales the magnitude. */
  lemma ExactQuotient(n: int, g: int)
    requires Divides(g, n)
    ensures (n / g) * g == n
    ensures Abs(n / g) == Abs(n) / g
    ensures (n / g > 0 <==> n > 0) && (n / g < 0 <==> n < 0)
  {
    DividesWitness(g, n);
    var q := n / g;
    assert q > 0 ==> g * q >= g * 1;
    assert q < 0 ==> g * (-q) >= g * 1;
    DividesAbs(g, n);
    DividesWitness(g, Abs(n));
    DivModUnique(Abs(n), g, Abs(q), 0);
  }
}

=== FILE: fractions.dfy ===
/** The fraction value type of `fractions.py`.

    A fraction is a pair of integers. Constructing one reduces it to lowest
    terms by dividing both fields by the gcd of their magnitudes, so the sign
    of each field is kept and nothing moves the sign to one place. The gcd
    search takes a remainder modulo the smaller magnitude, so a zero numerator
    or a zero denominator raises Python's ZeroDivisionError; that is the
    `ZeroDivision` failure here. Fields are exact integers throughout, so it
    is the only failure the model has; see the README for the floating-point
    effects of the original, overflow among them, that this leaves out. */
module Fractions {
  import opened Wrappers
  import opened Divisibility
  import opened NumberTheory

  datatype Fraction = Fraction(num: int, den: int)

  /** Python's ZeroDivisionError, raised by a remainder modulo zero. */
  datatype Error = ZeroDivision

  /** The rational number a fraction stands for. */
  function Value(f: Fraction): (v: real)
    requires f.den != 0
  {
    f.num as real / f.den as real
  }

  /** What every constructed fraction satisfies: both fields nonzero and no
      common divisor of their magnitudes above 1. */
  predicate InLowestTerms(f: Fraction) {
    f.num != 0 && f.den != 0 && Gcd(f.num, f.den) == 1
  }

  /** The same pair with the sign moved off a negative denominator. */
  function WithPositiveDenominator(f: Fraction): (g: Fraction) {
    if f.den < 0 then Fraction(-f.num, -f.den) else f
  }

  /** The outcome of an addition or subtraction: the new fraction, and the
      two operands as the operation leaves them (it rescales them in place and
      then reduces them again). */
  datatype Combined = Combined(result: Fraction, left: Fraction, right: Fraction)

  // ---------------------------------------------------------------------
  // Rational value

  lemma SameValueCross(f: Fraction, g: Fraction)
    requires f.den != 0 && g.den != 0
    ensures Value(f) == Value(g) <==> f.num * g.den == g.num * f.den
  {
    var x, y, u, v := f.num as real, f.den as real, g.num as real, g.den as real;
    assert x / y * y == x;
    assert u / v * v == u;
    assert (f.num * g.den) as real == x * v;
    assert (g.num * f.den) as real == u * y;
  }

  lemma ValueScaled(f: Fraction, k: int)
    ensures f.den != 0 && k != 0 ==>
      f.den * k != 0 && Value(Fraction(f.num * k, f.den * k)) == Value(f)
  {
    assert (f.num * k) as real == f.num as real * k as real;
    assert (f.den * k) as real == f.den as real * k as real;
  }

  lemma ValueProduct(f: Fraction, g: Fraction)
    ensures f.den != 0 && g.den != 0 ==>
      f.den * g.den != 0 && Value(Fraction(f.num * g.num, f.den * g.den)) == Value(f) * Value(g)
  {
    assert (f.num * g.num) as real == f.num as real * g.num as real;
    assert (f.den * g.den) as real == f.den as real * g.den as real;
  }

  lemma ValueQuotient(f: Fraction, g: Fraction)
    ensures f.den != 0 && g.den != 0 && g.num != 0 ==>
      f.den * g.num != 0 && Value(Fraction(f.num * g.den, f.den * g.num)) == Value(f) / Value(g)
  {
    assert (f.num * g.den) as real == f.num as real * g.den as real;
    assert (f.den * g.num) as real == f.den as real * g.num as real;
  }

  lemma ValueOverCommonDenominator(f: Fraction, g: Fraction, subtract: bool)
    requires f.den != 0 && f.den == g.den
    ensures Value(Fraction(if subtract then f.num - g.num else f.num + g.num, f.den))
      == if subtract then Value(f) - Value(g) else Value(f) + Value(g)
  {
  }

  lemma ValueZero(f: Fraction)
    requires f.den != 0
    ensures Value(f) == 0.0 <==> f.num == 0
  {
    assert Value(f) * f.den as real == f.num as real;
  }

  // ---------------------------------------------------------------------
  // Construction and reduction

  /** Reducing by the gcd keeps the value and the sign of each field and
      leaves the fields coprime. */
  lemma ReduceFacts(f: Fraction)
    requires f.num != 0 && f.den != 0
    ensures InLowestTerms(Fraction(f.num / Gcd(f.num, f.den), f.den / Gcd(f.num, f.den)))
    ensures Value(Fraction(f.num / Gcd(f.num, f.den), f.den / Gcd(f.num, f.den))) == Value(f)
    ensures (f.num / Gcd(f.num, f.den) > 0 <==> f.num > 0)
    ensures (f.den / Gcd(f.num, f.den) > 0 <==> f.den > 0)
  {
    var n, d, g := f.num, f.den, Gcd(f.num, f.den);
    ExactQuotient(n, g);
    ExactQuotient(d, g);
    var r := Fraction(n / g, d / g);
    ValueScaled(r, g);
    assert Fraction(r.num * g, r.den * g) == f;
    var c := Gcd(r.num, r.den);
    QuotientsCoprime(n, d, g, c);
  }

  /** After dividing both fields by their gcd, every common divisor is 1. */
  lemma QuotientsCoprime(n: int, d: int, g: int, c: int)
    requires n != 0 && d != 0 && g == Gcd(n, d)
    requires n / g != 0 && d / g != 0 && (n / g) * g == n && (d / g) * g == d
    requires c == Gcd(n / g, d / g)
    ensures c == 1
  {
    MultipleOfQuotient(n, g, c);
    MultipleOfQuotient(d, g, c);
    assert IsCommonDivisor(c * g, n, d);
    UnitFactor(c, g);
  }

  lemma UnitFactor(c: int, g: int)
    requires c >= 1 && g > 0 && c * g <= g
    ensures c == 1
  {
    assert c >= 2 ==> c * g >= 2 * g;
  }

  /** A divisor `c` of `n / g` gives the divisor `c * g` of `n`. */
  lemma MultipleOfQuotient(n: int, g: int, c: int)
    requires g > 0 && (n / g) * g == n && Divides(c, n / g)
    ensures Divides(c * g, n)
  {
    var s := (n / g) / c;
    DividesWitness(c, n / g);
    assert n == (c * s) * g;
    assert n == (c * g) * s;
    PositiveProduct(c, g);
    DividesMultiple(c * g, s);
  }

  /** `to_lowest_terms`: divide both fields by the gcd of their magnitudes.
      A zero field makes the gcd search divide by zero. */
  function ToLowestTerms(f: Fraction): (r: Result<Fraction, Error>)
    ensures r.Success? <==> f.num != 0 && f.den != 0
    ensures r.Success? ==> InLowestTerms(r.value) && Value(r.value) == Value(f)
    ensures r.Success? ==> (r.value.num > 0 <==> f.num > 0) && (r.value.den > 0 <==> f.den > 0)
  {
    if f.num == 0 || f.den == 0 then Failure(ZeroDivision)
    else
      ReduceFacts(f);
      var g := Gcd(f.num, f.den);
      Success(Fraction(f.num / g, f.den / g))
  }

  /** The constructor `Fraction(numerator, denominator)`: store the pair and
      reduce it to lowest terms. */
  function NewFraction(numerator: int, denominator: int): (r: Result<Fraction, Error>)
    ensures r.Success? <==> numerator != 0 && denominator != 0
    ensures r.Success? ==> InLowestTerms(r.value)
    ensures r.Success? ==> Value(r.value) == Value(Fraction(numerator, denominator))
    ensures r.Success? ==> (r.value.num > 0 <==> numerator > 0) && (r.value.den > 0 <==> denominator > 0)
  {
    ToLowestTerms(Fraction(numerator, denominator))
  }

  /** Lowest terms are canonical: two reduced fractions with the same value
      and denominators of the same sign are the same pair. */
  lemma LowestTermsUnique(f: Fraction, g: Fraction)
    requires InLowestTerms(f) && InLowestTerms(g)
    requires Value(f) == Value(g)
    requires f.den > 0 <==> g.den > 0
    ensures f == g
  {
    var a, b, c, d := f.num, f.den, g.num, g.den;
    SameValueCross(f, g);
    assert a * d == b * c;
    DividesSigned(b, c);
    CoprimeDivides(a, b, d);
    DividesAbs(Abs(b), d);
    assert c * b == d * a;
    DividesSigned(d, a);
    assert Gcd(c, d) == 1;
    CoprimeDivides(c, d, b);
    DividesAbs(Abs(d), b);
    DividesAntisymmetric(Abs(b), Abs(d));
    assert b == d;
    if d > 0 {
      CancelFactor(a, c, d);
    } else {
      assert a * (-d) == c * (-d);
      CancelFactor(a, c, -d);
    }
  }

  /** Reducing a fraction that is already in lowest terms changes nothing. */
  lemma NewFractionIdempotent(f: Fraction)
    requires InLowestTerms(f)
    ensures NewFraction(f.num, f.den) == Success(f)
  {
    var r := NewFraction(f.num, f.den);
    LowestTermsUnique(r.value, f);
  }

  /** Reducing forgets a common positive factor. */
  lemma NewFractionScaled(n: int, d: int, k: int)
    requires n != 0 && d != 0 && k > 0
    ensures NewFraction(n * k, d * k) == NewFraction(n, d)
  {
    ValueScaled(Fraction(n, d), k);
    var r, s := NewFraction(n * k, d * k), NewFraction(n, d);
    LowestTermsUnique(r.value, s.value);
  }

  // ---------------------------------------------------------------------
  // Arithmetic

  /** `_imul_number`: multiply both fields by an integer, without reducing. */
  function Scale(f: Fraction, k: int): (r: Fraction)
    ensures r.den == 0 <==> f.den == 0 || k == 0
    ensures f.den != 0 && k != 0 ==> Value(r) == Value(f)
    ensures k > 0 ==> (r.num > 0 <==> f.num > 0) && (r.den > 0 <==> f.den > 0)
    ensures r.den == f.den * k
    ensures r.num * f.den == f.num * r.den
  {
    ValueScaled(f, k);
    assert k > 0 ==> (f.num * k > 0 <==> f.num > 0) && (f.den * k > 0 <==> f.den > 0);
    Fraction(f.num * k, f.den * k)
  }

  /** Scaling a fraction in lowest terms by a positive factor and reducing it
      again gives back the same pair. */
  lemma ScaleThenReduce(f: Fraction, k: int)
    requires InLowestTerms(f) && k > 0
    ensures ToLowestTerms(Scale(f, k)) == Success(f)
  {
    var r := ToLowestTerms(Scale(f, k));
    LowestTermsUnique(r.value, f);
  }

  /** `_mul_fraction`: multiply numerators and denominators, then reduce. */
  function MulFraction(f: Fraction, g: Fraction): (r: Result<Fraction, Error>)
    ensures r.Success? <==> f.num != 0 && f.den != 0 && g.num != 0 && g.den != 0
    ensures r.Success? ==> InLowestTerms(r.value) && Value(r.value) == Value(f) * Value(g)
    ensures r.Success? ==> (r.value.den > 0 <==> f.den * g.den > 0)
  {
    ValueProduct(f, g);
    NewFraction(f.num * g.num, f.den * g.den)
  }

  /** `_div_fraction`: cross-multiply, then reduce. Dividing by a fraction
      whose numerator is zero gives a zero denominator, which fails. */
  function DivFraction(f: Fraction, g: Fraction): (r: Result<Fraction, Error>)
    ensures r.Success? <==> f.num != 0 && f.den != 0 && g.num != 0 && g.den != 0
    ensures g.num == 0 ==> r == Failure(ZeroDivision)
    ensures r.Success? ==> InLowestTerms(r.value) && Value(r.value) == Value(f) / Value(g)
    ensures r.Success? ==> (r.value.den > 0 <==> f.den * g.num > 0)
  {
    ValueQuotient(f, g);
    NewFraction(f.num * g.den, f.den * g.num)
  }

  /** The factor that takes denominator `d` to the common denominator `l`. */
  lemma ExactSignedQuotient(l: int, d: int)
    requires d != 0 && l > 0 && Divides(Abs(d), l)
    ensures l / d != 0 && d * (l / d) == l
  {
    if d > 0 {
      ExactQuotient(l, d);
    } else {
      DividesWitness(-d, l);
      var t := l / (-d);
      assert l == d * (-t) + 0;
      var q, r := l / d, l % d;
      assert l == d * q + r && 0 <= r < -d;
      assert d * (q + t) == -r;
      assert q + t >= 1 ==> d * (q + t) <= d * 1;
      assert q + t <= -1 ==> d * (q + t) >= (-d) * 1;
      assert q == -t;
      assert t > 0 by {
        assert t <= 0 ==> (-d) * t <= 0;
      }
    }
  }

  /** `convert_to_lcm`: rescale both operands to the lcm of their
      denominators. The lcm search divides by zero on a zero denominator. */
  function ConvertToLcm(f: Fraction, g: Fraction): (r: Result<(Fraction, Fraction), Error>)
    ensures r.Success? <==> f.den != 0 && g.den != 0
    ensures r.Success? ==> r.value.0.den == Lcm(f.den, g.den) && r.value.1.den == Lcm(f.den, g.den)
    ensures r.Success? ==> Value(r.value.0) == Value(f) && Value(r.value.1) == Value(g)
    ensures r.Success? ==> (r.value.0.num == 0 <==> f.num == 0) && (r.value.1.num == 0 <==> g.num == 0)
  {
    if f.den == 0 || g.den == 0 then Failure(ZeroDivision)
    else
      var l := Lcm(f.den, g.den);
      ExactSignedQuotient(l, f.den);
      ExactSignedQuotient(l, g.den);
      assert f.num * (l / f.den) == 0 <==> f.num == 0;
      assert g.num * (l / g.den) == 0 <==> g.num == 0;
      Success((Scale(f, l / f.den), Scale(g, l / g.den)))
  }

  /** The value an addition (`subtract` false) or a subtraction (`subtract`
      true) should produce. */
  function Combine(x: real, y: real, subtract: bool): (z: real) {
    if subtract then x - y else x + y
  }

  /** The shared body of `_add_fraction` and `_sub_fraction`: move both
      operands to the common denominator in place, build the result from the
      combined numerators, then reduce both operands again. */
  function CombineOverLcm(f: Fraction, g: Fraction, subtract: bool): (r: Result<Combined, Error>)
    ensures r.Success? <==>
      f.num != 0 && f.den != 0 && g.num != 0 && g.den != 0 && Combine(Value(f), Value(g), subtract) != 0.0
    ensures r.Success? ==>
      && InLowestTerms(r.value.result) && r.value.result.den > 0
      && Value(r.value.result) == Combine(Value(f), Value(g), subtract)
    ensures r.Success? ==>
      && InLowestTerms(r.value.left) && Value(r.value.left) == Value(f) && r.value.left.den > 0
      && InLowestTerms(r.value.right) && Value(r.value.right) == Value(g) && r.value.right.den > 0
  {
    var scaled :- ConvertToLcm(f, g);
    var (f', g') := scaled;
    var n := if subtract then f'.num - g'.num else f'.num + g'.num;
    ValueOverCommonDenominator(f', g', subtract);
    ValueZero(Fraction(n, f'.den));
    var result :- NewFraction(n, f'.den);
    var left :- ToLowestTerms(f');
    var right :- ToLowestTerms(g');
    Success(Combined(result, left, right))
  }

  /** `_add_fraction`. */
  function AddFraction(f: Fraction, g: Fraction): (r: Result<Combined, Error>)
    ensures r.Success? <==>
      f.num != 0 && f.den != 0 && g.num != 0 && g.den != 0 && Value(f) + Value(g) != 0.0
    ensures r.Success? ==>
      InLowestTerms(r.value.result) && r.value.result.den > 0
      && Value(r.value.result) == Value(f) + Value(g)
  {
    CombineOverLcm(f, g, false)
  }

  /** `_sub_fraction`. */
  function SubFraction(f: Fraction, g: Fraction): (r: Result<Combined, Error>)
    ensures r.Success? <==>
      f.num != 0 && f.den != 0 && g.num != 0 && g.den != 0 && Value(f) != Value(g)
    ensures r.Success? ==>
      InLowestTerms(r.value.result) && r.value.result.den > 0
      && Value(r.value.result) == Value(f) - Value(g)
  {
    CombineOverLcm(f, g, true)
  }

  // ---------------------------------------------------------------------
  // Properties relating several operations

  /** Addition and subtraction leave each operand holding its old value, in
      lowest terms, with the sign moved off a negative denominator. */
  lemma CombineRestoresOperands(f: Fraction, g: Fraction, subtract: bool)
    requires InLowestTerms(f) && InLowestTerms(g)
    requires CombineOverLcm(f, g, subtract).Success?
    ensures CombineOverLcm(f, g, subtract).value.left == WithPositiveDenominator(f)
    ensures CombineOverLcm(f, g, subtract).value.right == WithPositiveDenominator(g)
  {
    var c := CombineOverLcm(f, g, subtract).value;
    FlipSignsKeepsLowestTerms(f);
    FlipSignsKeepsLowestTerms(g);
    LowestTermsUnique(c.left, WithPositiveDenominator(f));
    LowestTermsUnique(c.right, WithPositiveDenominator(g));
  }

  lemma FlipSignsKeepsLowestTerms(f: Fraction)
    requires InLowestTerms(f)
    ensures InLowestTerms(WithPositiveDenominator(f))
    ensures WithPositiveDenominator(f).den > 0
    ensures Value(WithPositiveDenominator(f)) == Value(f)
  {
    if f.den < 0 {
      GcdSymmetric(f.num, f.den);
      GcdSymmetric(-f.num, f.den);
      ValueScaled(f, -1);
    }
  }

  lemma AddCommutative(f: Fraction, g: Fraction)
    ensures AddFraction(f, g).Success? <==> AddFraction(g, f).Success?
    ensures AddFraction(f, g).Success? ==>
      AddFraction(f, g).value.result == AddFraction(g, f).value.result
  {
    if f.den != 0 && g.den != 0 {
      LcmSymmetric(f.den, g.den);
    }
  }

  lemma MulCommutative(f: Fraction, g: Fraction)
    ensures MulFraction(f, g) == MulFraction(g, f)
  {
    assert f.num * g.num == g.num * f.num;
    assert f.den * g.den == g.den * f.den;
  }

  /** Multiplying by one gives back a reduced fraction unchanged. */
  lemma MulIdentity(f: Fraction)
    requires InLowestTerms(f)
    ensures MulFraction(f, Fraction(1, 1)) == Success(f)
  {
    NewFractionIdempotent(f);
  }

  /** Subtracting what was just added gives back the original fraction, with
      the sign moved off a negative denominator. */
  lemma AddThenSubtract(f: Fraction, g: Fraction)
    requires InLowestTerms(f) && InLowestTerms(g)
    requires AddFraction(f, g).Success?
    ensures SubFraction(AddFraction(f, g).value.result, g) ==
      Success(Combined(WithPositiveDenominator(f), AddFraction(f, g).value.result, WithPositiveDenominator(g)))
  {
    var s := AddFraction(f, g).value.result;
    ValueZero(f);
    var d := SubFraction(s, g);
    assert d.Success?;
    FlipSignsKeepsLowestTerms(f);
    LowestTermsUnique(d.value.result, WithPositiveDenominator(f));
    CombineRestoresOperands(s, g, true);
    assert WithPositiveDenominator(s) == s;
  }

  /** Dividing by what was just multiplied gives back the original value. */
  lemma MulThenDivide(f: Fraction, g: Fraction)
    requires InLowestTerms(f) && InLowestTerms(g)
    ensures MulFraction(f, g).Success?
    ensures DivFraction(MulFraction(f, g).value, g).Success?
    ensures Value(DivFraction(MulFraction(f, g).value, g).value) == Value(f)
  {
    MulThenDivideDefined(f, g);
    var m := MulFraction(f, g).value;
    var q := DivFraction(m, g).value;
    ProductThenQuotient(f, g, m, q);
  }

  /** With a positive divisor the sign of the denominator comes back too, so
      dividing by what was just multiplied gives back the very pair. */
  lemma MulThenDivideExact(f: Fraction, g: Fraction)
    requires InLowestTerms(f) && InLowestTerms(g)
    requires g.num > 0 && g.den > 0
    ensures DivFraction(MulFraction(f, g).value, g) == Success(f)
  {
    MulThenDivide(f, g);
    var q := DivFraction(MulFraction(f, g).value, g).value;
    LowestTermsUnique(q, f);
  }

  lemma MulThenDivideDefined(f: Fraction, g: Fraction)
    requires InLowestTerms(f) && InLowestTerms(g)
    ensures MulFraction(f, g).Success?
    ensures DivFraction(MulFraction(f, g).value, g).Success?
  {
  }

  lemma ProductThenQuotient(f: Fraction, g: Fraction, m: Fraction, q: Fraction)
    requires InLowestTerms(f) && InLowestTerms(g)
    requires MulFraction(f, g) == Success(m) && DivFraction(m, g) == Success(q)
    ensures Value(q) == Value(f)
  {
    QuotientOfProduct(f, g, m, q);
  }

  lemma QuotientOfProduct(f: Fraction, g: Fraction, m: Fraction, q: Fraction)
    requires f.den != 0 && g.den != 0 && g.num != 0 && m.den != 0 && q.den != 0
    requires Value(m) == Value(f) * Value(g) && Value(q) == Value(m) / Value(g)
    ensures Value(q) == Value(f)
  {
    ValueZero(g);
    CancelReal(Value(f), Value(g));
  }

  lemma CancelReal(x: real, y: real)
    requires y != 0.0
    ensures (x * y) / y == x
  {
  }
}

=== FILE: number_theory.dfy ===
/** Greatest common divisor and least common multiple of two nonzero integers,
    taken over their magnitudes.

    `Gcd` and `Lcm` are reference definitions (Euclid's algorithm, and the
    product of the magnitudes divided by the gcd). `GetGcd` and `GetLcm` follow
    the repository's own searches (a downward divisor search with a jump to
    half the smaller magnitude, and a walk through the multiples of the larger
    magnitude) and are proved to compute the same values. A zero argument makes
    the repository's searches take a remainder modulo zero, so both require
    nonzero arguments; the fraction model reports that case as an error
    before calling them. */
module NumberTheory {
  import opened Divisibility

  /** `c` is a positive divisor of both `a` and `b`. */
  predicate IsCommonDivisor(c: int, a: int, b: int) {
    Divides(c, a) && Divides(c, b)
  }

  /** `m` is a positive multiple of both magnitudes. */
  predicate IsCommonMultiple(m: int, a: int, b: int) {
    m > 0 && Divides(Abs(a), m) && Divides(Abs(b), m)
  }

  /** Euclid's algorithm on magnitudes. */
  function Euclid(a: nat, b: nat): (g: nat)
    requires b > 0
    ensures 0 < g <= b
    decreases b
  {
    if a % b == 0 then b else Euclid(b, a % b)
  }

  lemma {:induction false} EuclidDivides(a: nat, b: nat)
    requires b > 0
    ensures IsCommonDivisor(Euclid(a, b), a, b)
    decreases b
  {
    if a % b == 0 {
      DividesMultiple(b, 1);
    } else {
      var r := a % b;
      var g := Euclid(b, r);
      EuclidDivides(b, r);
      assert a == (a / b) * b + 1 * r;
      DividesLinear(g, b, r, a / b, 1);
    }
  }

  lemma {:induction false} EuclidGreatest(a: nat, b: nat, c: int)
    requires b > 0 && IsCommonDivisor(c, a, b)
    ensures Divides(c, Euclid(a, b))
    decreases b
  {
    if a % b != 0 {
      var r := a % b;
      assert r == 1 * a + (-(a / b)) * b;
      DividesLinear(c, a, b, 1, -(a / b));
      EuclidGreatest(b, r, c);
    }
  }

  /** Bezout's identity: the gcd is an integer combination of the arguments. */
  lemma {:induction false} Bezout(a: nat, b: nat) returns (x: int, y: int)
    requires b > 0
    ensures a * x + b * y == Euclid(a, b)
    decreases b
  {
    if a % b == 0 {
      x, y := 0, 1;
    } else {
      var q, r := a / b, a % b;
      var x', y' := Bezout(b, r);
      assert a == q * b + r;
      calc {
        Euclid(a, b);
        b * x' + r * y';
        b * x' + (a - q * b) * y';
        a * y' + b * (x' - q * y');
      }
      x, y := y', x' - q * y';
    }
  }

  lemma GcdFacts(a: int, b: int)
    requires a != 0 && b != 0
    ensures IsCommonDivisor(Euclid(Abs(a), Abs(b)), a, b)
    ensures forall c :: IsCommonDivisor(c, a, b) ==> Divides(c, Euclid(Abs(a), Abs(b)))
  {
    var g := Euclid(Abs(a), Abs(b));
    EuclidDivides(Abs(a), Abs(b));
    DividesAbs(g, a);
    DividesAbs(g, b);
    forall c | IsCommonDivisor(c, a, b)
      ensures Divides(c, g)
    {
      DividesAbs(c, a);
      DividesAbs(c, b);
      EuclidGreatest(Abs(a), Abs(b), c);
    }
    DividesBound(g, Abs(a));
  }

  /** The greatest common divisor of two nonzero integers: a positive common
      divisor of their magnitudes that every common divisor divides. */
  function Gcd(a: int, b: int): (g: int)
    requires a != 0 && b != 0
    ensures 1 <= g <= Min(Abs(a), Abs(b))
    ensures IsCommonDivisor(g, a, b)
    ensures forall c :: IsCommonDivisor(c, a, b) ==> Divides(c, g) && c <= g
  {
    GcdFacts(a, b);
    var g := Euclid(Abs(a), Abs(b));
    DividesAbs(g, a);
    DividesBound(g, Abs(a));
    assert forall c :: IsCommonDivisor(c, a, b) ==> c <= g by {
      forall c | IsCommonDivisor(c, a, b)
        ensures c <= g
      {
        DividesBound(c, g);
      }
    }
    g
  }

  /** Only magnitudes matter, and the order of the arguments does not. */
  lemma GcdSymmetric(a: int, b: int)
    requires a != 0 && b != 0
    ensures Gcd(a, b) == Gcd(b, a)
    ensures Gcd(a, b) == Gcd(-a, b) == Gcd(a, -b)
  {
    DividesAntisymmetric(Gcd(a, b), Gcd(b, a));
  }

  /** The gcd is an integer combination of the two arguments. */
  lemma GcdBezout(a: int, b: int) returns (x: int, y: int)
    requires a != 0 && b != 0
    ensures a * x + b * y == Gcd(a, b)
  {
    var x', y' := Bezout(Abs(a), Abs(b));
    x := if a < 0 then -x' else x';
    y := if b < 0 then -y' else y';
    SignedFactor(a, x');
    SignedFactor(b, y');
  }

  lemma SignedFactor(a: int, x: int)
    ensures a * (if a < 0 then -x else x) == Abs(a) * x
  {
    assert a < 0 ==> a * -x == -a * x;
  }

  /** Euclid's lemma: a number coprime to `a` that divides `a * x` divides `x`. */
  lemma CoprimeDivides(a: int, b: int, x: int)
    requires a != 0 && b != 0 && Gcd(a, b) == 1
    requires Divides(Abs(b), a * x)
    ensures Divides(Abs(b), x)
  {
    var p, q := GcdBezout(a, b);
    CombineScaled(a, b, p, q, x);
    DividesSigned(b, x);
    DividesLinear(Abs(b), a * x, b * x, p, q);
  }

  lemma CombineScaled(a: int, b: int, p: int, q: int, x: int)
    requires a * p + b * q == 1
    ensures p * (a * x) + q * (b * x) == x
  {
    calc {
      p * (a * x) + q * (b * x);
      (a * p + b * q) * x;
      x;
    }
  }

  lemma DividesSigned(b: int, x: int)
    requires b != 0
    ensures Divides(Abs(b), b * x)
  {
    DividesMultiple(Abs(b), x);
    if b < 0 {
      DividesScaled(Abs(b), Abs(b) * x, -1);
      assert (Abs(b) * x) * -1 == b * x by {
        assert Abs(b) == -b;
      }
    }
  }

  /** Every common multiple of `a` and `b` is a multiple of
      `|a| * (|b| / gcd(a, b))`. */
  lemma LcmDividesCommonMultiple(a: int, b: int, k: int)
    requires a != 0 && b != 0 && IsCommonMultiple(k, a, b)
    ensures Divides(Abs(a) * (Abs(b) / Gcd(a, b)), k)
  {
    var A, B, G := Abs(a), Abs(b), Gcd(a, b);
    DividesAbs(G, b);
    ExactQuotient(B, G);
    var B' := B / G;
    var x, y := Bezout(A, B);
    assert A * x + B * y == G by {
      GcdFacts(a, b);
      DividesAntisymmetric(G, Euclid(A, B));
    }
    DividesWitness(A, k);
    DividesWitness(B, k);
    var c := (k / B) * x + (k / A) * y;
    MultipleTimesCombination(k, A, B, k / A, k / B, x, y, G);
    RegroupProduct(A, B, B', G, c);
    CancelFactor(k, (A * B') * c, G);
    assert B' > 0;
    assert A * B' > 0;
    DividesMultiple(A * B', c);
  }

  lemma MultipleTimesCombination(k: int, A: int, B: int, s: int, t: int, x: int, y: int, G: int)
    requires k == A * s && k == B * t && A * x + B * y == G
    ensures k * G == A * B * (t * x + s * y)
  {
    calc {
      k * G;
      k * (A * x) + k * (B * y);
      (B * t) * (A * x) + (A * s) * (B * y);
      A * B * (t * x + s * y);
    }
  }

  lemma RegroupProduct(A: int, B: int, B': int, G: int, c: int)
    requires B == B' * G
    ensures A * B * c == ((A * B') * c) * G
  {
  }

  lemma CancelFactor(x: int, y: int, g: int)
    requires g > 0 && x * g == y * g
    ensures x == y
  {
    assert (x - y) * g == 0;
  }

  /** The least common multiple of two nonzero integers: a positive common
      multiple of their magnitudes that divides every common multiple, so no
      smaller positive common multiple exists; times the gcd it is the product
      of the magnitudes. */
  function Lcm(a: int, b: int): (m: int)
    requires a != 0 && b != 0
    ensures IsCommonMultiple(m, a, b)
    ensures forall k :: IsCommonMultiple(k, a, b) ==> Divides(m, k) && m <= k
    ensures m * Gcd(a, b) == Abs(a) * Abs(b)
  {
    LcmFacts(a, b);
    Abs(a) * (Abs(b) / Gcd(a, b))
  }

  lemma LcmFacts(a: int, b: int)
    requires a != 0 && b != 0
    ensures IsCommonMultiple(Abs(a) * (Abs(b) / Gcd(a, b)), a, b)
    ensures forall k :: IsCommonMultiple(k, a, b) ==>
      Divides(Abs(a) * (Abs(b) / Gcd(a, b)), k) && Abs(a) * (Abs(b) / Gcd(a, b)) <= k
    ensures (Abs(a) * (Abs(b) / Gcd(a, b))) * Gcd(a, b) == Abs(a) * Abs(b)
  {
    var A, B, G := Abs(a), Abs(b), Gcd(a, b);
    DividesAbs(G, a);
    DividesAbs(G, b);
    ExactQuotient(A, G);
    ExactQuotient(B, G);
    var A', B' := A / G, B / G;
    var m := A * B';
    assert A' > 0 && B' > 0;
    PositiveProduct(A, B');
    SwapQuotients(A, B, G, A', B');
    DividesMultiple(A, B');
    DividesMultiple(B, A');
    forall k | IsCommonMultiple(k, a, b)
      ensures Divides(m, k) && m <= k
    {
      LcmDividesCommonMultiple(a, b, k);
      DividesBound(m, k);
    }
  }

  lemma PositiveProduct(x: int, y: int)
    requires x > 0 && y > 0
    ensures x * y > 0
  {
  }

  lemma SwapQuotients(A: int, B: int, G: int, A': int, B': int)
    requires A == A' * G && B == B' * G
    ensures A * B' == B * A' && (A * B') * G == A * B
  {
  }

  lemma LcmSymmetric(a: int, b: int)
    requires a != 0 && b != 0
    ensures Lcm(a, b) == Lcm(b, a)
    ensures Lcm(a, b) == Lcm(-a, b) == Lcm(a, -b)
  {
    DividesAntisymmetric(Lcm(a, b), Lcm(b, a));
  }

  /** A common divisor of `a` and `b` smaller than the smaller magnitude is at
      most half of it: the jump of the divisor search to half the smaller
      magnitude skips no common divisor. */
  lemma GcdSearchJump(a: int, b: int, c: int)
    requires a != 0 && b != 0
    requires IsCommonDivisor(c, a, b) && c < Min(Abs(a), Abs(b))
    ensures c <= Min(Abs(a), Abs(b)) / 2
  {
    var m := Min(Abs(a), Abs(b));
    DividesAbs(c, a);
    DividesAbs(c, b);
    assert Divides(c, m);
    DividesWitness(c, m);
    ProperDivisorAtMostHalf(c, m / c, m);
  }

  lemma ProperDivisorAtMostHalf(c: int, k: int, m: int)
    requires 0 < c < m && m == c * k
    ensures c <= m / 2
  {
    assert k >= 2 by {
      assert k <= 0 ==> c * k <= 0;
      assert k != 1;
    }
    assert c * k >= c * 2;
  }

  /** The repository's gcd search: start at the smaller magnitude; if that is
      not a common divisor, jump to half of it and count down until a common
      divisor turns up (1 always is one). */
  method GetGcd(base1: int, base2: int) returns (g: int)
    requires base1 != 0 && base2 != 0
    ensures g == Gcd(base1, base2)
    ensures 1 <= g <= Min(Abs(base1), Abs(base2))
  {
    var a, b := Abs(base1), Abs(base2);
    var m := Min(a, b);
    g := m;
    var isGcd := a % g == 0 && b % g == 0;
    NothingAboveSmaller(a, b);
    if !isGcd {
      JumpSkipsNothing(a, b, m / 2);
      g := CountDown(a, b, m / 2);
    }
    SearchResultIsGcd(base1, base2, g);
  }

  /** The downward half of the gcd search, from a candidate above which no
      common divisor lies. */
  method CountDown(a: int, b: int, start: int) returns (g: int)
    requires a > 0 && b > 0 && 1 <= start
    requires forall c :: start < c ==> !IsCommonDivisor(c, a, b)
    ensures 1 <= g <= start
    ensures g == 1 || IsCommonDivisor(g, a, b)
    ensures forall c :: g < c ==> !IsCommonDivisor(c, a, b)
  {
    g := start;
    var isGcd := a % g == 0 && b % g == 0;
    while !isGcd && g > 1
      invariant 1 <= g <= start
      invariant isGcd == IsCommonDivisor(g, a, b)
      invariant forall c :: g < c ==> !IsCommonDivisor(c, a, b)
      decreases g
    {
      PassOver(a, b, g);
      g := g - 1;
      isGcd := a % g == 0 && b % g == 0;
    }
  }

  /** No common divisor exceeds the smaller magnitude, where the search
      starts. */
  lemma NothingAboveSmaller(a: int, b: int)
    requires a > 0 && b > 0
    ensures forall c :: Min(a, b) < c ==> !IsCommonDivisor(c, a, b)
  {
    forall c | Min(a, b) < c && IsCommonDivisor(c, a, b)
      ensures false
    {
      DividesBound(c, Min(a, b));
    }
  }

  /** After the jump from a smaller magnitude `m` that is not a common divisor
      to `m / 2`, no common divisor lies above the new candidate. */
  lemma JumpSkipsNothing(a: int, b: int, g: int)
    requires a > 0 && b > 0
    requires !IsCommonDivisor(Min(a, b), a, b)
    requires g == Min(a, b) / 2
    ensures 1 <= g <= Min(a, b)
    ensures forall c :: g < c ==> !IsCommonDivisor(c, a, b)
  {
    assert Min(a, b) != 1;
    forall c | g < c && IsCommonDivisor(c, a, b)
      ensures false
    {
      DividesBound(c, Min(a, b));
      GcdSearchJump(a, b, c);
    }
  }

  /** A candidate that is not a common divisor can be passed over. */
  lemma PassOver(a: int, b: int, g: int)
    requires !IsCommonDivisor(g, a, b)
    requires forall c :: g < c ==> !IsCommonDivisor(c, a, b)
    ensures forall c :: g - 1 < c ==> !IsCommonDivisor(c, a, b)
  {
  }

  lemma SearchResultIsGcd(base1: int, base2: int, g: int)
    requires base1 != 0 && base2 != 0 && 1 <= g
    requires g == 1 || IsCommonDivisor(g, Abs(base1), Abs(base2))
    requires forall c :: g < c ==> !IsCommonDivisor(c, Abs(base1), Abs(base2))
    ensures g == Gcd(base1, base2)
  {
    var r := Gcd(base1, base2);
    DividesAbs(r, base1);
    DividesAbs(r, base2);
    assert IsCommonDivisor(r, Abs(base1), Abs(base2));
    assert r <= g;
    DividesAbs(g, base1);
    DividesAbs(g, base2);
    assert g == 1 || IsCommonDivisor(g, base1, base2);
  }

  /** The repository's lcm search: walk through the multiples of the larger
      magnitude until one is divisible by the smaller magnitude. */
  method GetLcm(base1: int, base2: int) returns (m: int)
    requires base1 != 0 && base2 != 0
    ensures m == Lcm(base1, base2)
    ensures m > 0 && m % Abs(base1) == 0 && m % Abs(base2) == 0
  {
    var a, b := Abs(base1), Abs(base2);
    var base, tester := Max(a, b), Min(a, b);
    m := base;
    ghost var k := 1;
    NothingBelowLarger(a, b);
    var found := m % tester == 0;
    while !found
      invariant 1 <= k <= tester && m == base * k
      invariant found == Divides(tester, m)
      invariant forall j :: 0 < j < m ==> !IsCommonMultiple(j, a, b)
      decreases tester - k
    {
      SearchStep(a, b, k, m);
      m := m + base;
      k := k + 1;
      found := m % tester == 0;
    }
    SearchResultIsLcm(base1, base2, k, m);
  }

  /** No common multiple lies below the larger magnitude, where the search
      starts. */
  lemma NothingBelowLarger(a: int, b: int)
    requires a > 0 && b > 0
    ensures forall j :: 0 < j < Max(a, b) ==> !IsCommonMultiple(j, a, b)
  {
    forall j | 0 < j < Max(a, b) && IsCommonMultiple(j, a, b)
      ensures false
    {
      DividesBound(Max(a, b), j);
    }
  }

  /** One step of the lcm search: the candidate was not a common multiple, so
      the search has not yet reached `Max(a, b) * Min(a, b)`, and no common
      multiple lies below the next candidate. */
  lemma SearchStep(a: int, b: int, k: int, m: int)
    requires a > 0 && b > 0 && 1 <= k <= Min(a, b) && m == Max(a, b) * k
    requires !Divides(Min(a, b), m)
    requires forall j :: 0 < j < m ==> !IsCommonMultiple(j, a, b)
    ensures k < Min(a, b) && m + Max(a, b) == Max(a, b) * (k + 1)
    ensures forall j :: 0 < j < m + Max(a, b) ==> !IsCommonMultiple(j, a, b)
  {
    assert k != Min(a, b) by {
      DividesMultiple(Min(a, b), Max(a, b));
      assert k == Min(a, b) ==> m == Min(a, b) * Max(a, b);
    }
    NoCommonMultipleUpToNext(a, b, k);
  }

  /** The multiples of the larger magnitude strictly between `base * k` and
      `base * (k + 1)` are no common multiples, and neither is `base * k` when
      the smaller magnitude does not divide it. */
  lemma NoCommonMultipleUpToNext(a: int, b: int, k: int)
    requires a > 0 && b > 0 && k >= 1
    requires !Divides(Min(a, b), Max(a, b) * k)
    ensures forall j :: Max(a, b) * k <= j < Max(a, b) * k + Max(a, b) ==> !IsCommonMultiple(j, a, b)
  {
    var base := Max(a, b);
    forall j | base * k <= j < base * k + base
      ensures !IsCommonMultiple(j, a, b)
    {
      if j != base * k {
        DivModUnique(j, base, k, j - base * k);
      }
    }
  }

  lemma SearchResultIsLcm(base1: int, base2: int, k: int, m: int)
    requires base1 != 0 && base2 != 0 && k >= 1
    requires m == Max(Abs(base1), Abs(base2)) * k
    requires Divides(Min(Abs(base1), Abs(base2)), m)
    requires forall j :: 0 < j < m ==> !IsCommonMultiple(j, Abs(base1), Abs(base2))
    ensures m == Lcm(base1, base2)
    ensures m > 0 && m % Abs(base1) == 0 && m % Abs(base2) == 0
  {
    var a, b := Abs(base1), Abs(base2);
    DividesMultiple(Max(a, b), k);
    PositiveProduct(Max(a, b), k);
    assert IsCommonMultiple(m, base1, base2);
    var l := Lcm(base1, base2);
    assert IsCommonMultiple(l, a, b);
  }
}

=== FILE: parser.dfy ===
/** `convert_fraction_str`, the text form of a fraction, and the way the two
    fit together.

    The parser has three outcomes: `Success(Some(f))` for a fraction,
    `Success(None)` for text that is not one (the wrong number of `/`, or an
    integer piece that `int()` rejects with a ValueError), and
    `Failure(ZeroDivision)` when the pieces parse but the constructor then
    divides by zero. The repository catches only ValueError, so that last
    outcome escapes the parser as an exception. */
module Parser {
  import opened Wrappers
  import opened Text
  import opened Fractions

  /** Hand a numerator and denominator to the constructor, passing its
      failure on. */
  function Construct(numerator: int, denominator: int): (r: Result<Option<Fraction>, Error>)
    ensures r.Failure? <==> numerator == 0 || denominator == 0
    ensures r.Success? ==>
      && r.value.Some? && InLowestTerms(r.value.value)
      && Value(r.value.value) == Value(Fraction(numerator, denominator))
    ensures r.Success? ==>
      (r.value.value.num > 0 <==> numerator > 0) && (r.value.value.den > 0 <==> denominator > 0)
  {
    match NewFraction(numerator, denominator)
    case Success(f) => Success(Some(f))
    case Failure(e) => Failure(e)
  }

  /** `convert_fraction_str`: split on `/` and demand exactly two pieces,
      then read the two sides. */
  function ConvertFractionStr(s: string): (r: Result<Option<Fraction>, Error>)
    ensures CountChar(s, '/') != 1 ==> r == Success(None)
    ensures r.Success? && r.value.Some? ==> CountChar(s, '/') == 1 && InLowestTerms(r.value.value)
    ensures r.Failure? <==> |Split(s, '/')| == 2 && ReadsAZero(Split(s, '/')[0], Split(s, '/')[1])
  {
    var parts := Split(s, '/');
    if |parts| != 2 then Success(None) else ReadSides(parts[0], parts[1])
  }

  /** The numerator the text left of `/` stands for, given the denominator:
      the last space-separated piece, plus `whole * denominator` when there
      are exactly two pieces and the first is the whole part. `None` when
      `int()` rejects a piece it reads. */
  function ReadNumerator(left: string, denominator: int): (n: Option<int>)
    ensures n.Some? ==> ParseInt(Split(left, ' ')[|Split(left, ' ')| - 1]).Some?
    ensures |Split(left, ' ')| != 2 ==> n == ParseInt(Split(left, ' ')[|Split(left, ' ')| - 1])
    ensures |Split(left, ' ')| == 2 ==>
      (n.Some? <==> ParseInt(Split(left, ' ')[0]).Some? && ParseInt(Split(left, ' ')[1]).Some?)
    ensures |Split(left, ' ')| == 2 && n.Some? && denominator != 0 ==>
      Value(Fraction(n.value, denominator)) ==
      ParseInt(Split(left, ' ')[0]).value as real + Value(Fraction(ParseInt(Split(left, ' ')[1]).value, denominator))
  {
    var pieces := Split(left, ' ');
    WholePartValue(pieces, denominator);
    match ParseInt(pieces[|pieces| - 1])
    case None => None
    case Some(numerator) =>
      if |pieces| == 2 then
        match ParseInt(pieces[0])
        case None => None
        case Some(whole) => Some(numerator + whole * denominator)
      else Some(numerator)
  }

  /** A whole part `w` before the numerator `a` adds `w` to the value of
      `a / denominator`. */
  lemma WholePartValue(pieces: seq<string>, denominator: int)
    ensures |pieces| == 2 && denominator != 0 && ParseInt(pieces[0]).Some? && ParseInt(pieces[1]).Some? ==>
      Value(Fraction(ParseInt(pieces[1]).value + ParseInt(pieces[0]).value * denominator, denominator)) ==
      ParseInt(pieces[0]).value as real + Value(Fraction(ParseInt(pieces[1]).value, denominator))
  {
    if |pieces| == 2 && denominator != 0 && ParseInt(pieces[0]).Some? && ParseInt(pieces[1]).Some? {
      MixedValue(ParseInt(pieces[1]).value, ParseInt(pieces[0]).value, denominator);
    }
  }

  /** Both sides read as integers, and one of them is zero: the case the
      constructor cannot handle. */
  predicate ReadsAZero(left: string, right: string) {
    && ParseInt(right).Some?
    && ReadNumerator(left, ParseInt(right).value).Some?
    && (ParseInt(right).value == 0 || ReadNumerator(left, ParseInt(right).value).value == 0)
  }

  /** The body of the `try` block: parse the right side as the denominator,
      then the left side as the numerator, and construct. Any ValueError from
      `int()` means "not a fraction"; a zero side fails in the constructor. */
  function ReadSides(left: string, right: string): (r: Result<Option<Fraction>, Error>)
    ensures ParseInt(right).None? ==> r == Success(None)
    ensures r.Failure? <==> ReadsAZero(left, right)
    ensures r.Success? && r.value.Some? ==>
      && ParseInt(right).Some? && ReadNumerator(left, ParseInt(right).value).Some?
      && InLowestTerms(r.value.value)
      && Value(r.value.value) == Value(Fraction(ReadNumerator(left, ParseInt(right).value).value, ParseInt(right).value))
      && (r.value.value.num > 0 <==> ReadNumerator(left, ParseInt(right).value).value > 0)
      && (r.value.value.den > 0 <==> ParseInt(right).value > 0)
  {
    match ParseInt(right)
    case None => Success(None)
    case Some(denominator) =>
      match ReadNumerator(left, denominator)
      case None => Success(None)
      case Some(numerator) => Construct(numerator, denominator)
  }

  /** `__str__`: the numerator, a slash, the denominator. */
  function Format(f: Fraction): (s: string)
    ensures CountChar(s, '/') == 1
    ensures Split(s, '/') == [IntToString(f.num), IntToString(f.den)]
  {
    SplitOnce(IntToString(f.num), IntToString(f.den), '/');
    IntToString(f.num) + "/" + IntToString(f.den)
  }

  // ---------------------------------------------------------------------
  // What the parser accepts

  /** `"n/d"` is the fraction `n` over `d`. */
  lemma ParseSimpleFraction(a: string, b: string)
    requires '/' !in a && '/' !in b && ' ' !in a
    requires ParseInt(a).Some? && ParseInt(b).Some?
    ensures ConvertFractionStr(a + "/" + b) == Construct(ParseInt(a).value, ParseInt(b).value)
  {
    SplitOnce(a, b, '/');
    SplitWithoutSeparator(a, ' ');
  }

  /** `"w n/d"` is the fraction `n + w * d` over `d`, whose value is `w + n / d`. */
  lemma ParseMixedNumber(w: string, a: string, b: string)
    requires '/' !in w && '/' !in a && '/' !in b && ' ' !in w && ' ' !in a
    requires ParseInt(w).Some? && ParseInt(a).Some? && ParseInt(b).Some?
    ensures ConvertFractionStr(w + " " + a + "/" + b) ==
      Construct(ParseInt(a).value + ParseInt(w).value * ParseInt(b).value, ParseInt(b).value)
    ensures ParseInt(b).value != 0 ==>
      Value(Fraction(ParseInt(a).value + ParseInt(w).value * ParseInt(b).value, ParseInt(b).value))
      == ParseInt(w).value as real + Value(Fraction(ParseInt(a).value, ParseInt(b).value))
  {
    var left := w + " " + a;
    assert '/' !in left;
    assert w + " " + a + "/" + b == left + "/" + b;
    SplitOnce(left, b, '/');
    assert left == w + [' '] + a;
    SplitOnce(w, a, ' ');
    var n, x, d := ParseInt(a).value, ParseInt(w).value, ParseInt(b).value;
    if d != 0 {
      MixedValue(n, x, d);
    }
  }

  lemma MixedValue(n: int, w: int, d: int)
    requires d != 0
    ensures Value(Fraction(n + w * d, d)) == w as real + Value(Fraction(n, d))
  {
    assert (n + w * d) as real == n as real + w as real * d as real;
  }

  /** With three or more space-separated pieces before the `/`, only the
      last one counts: the others are ignored, not rejected. */
  lemma ParseIgnoresLeadingPieces(left: string, b: string)
    requires '/' !in left && '/' !in b
    requires |Split(left, ' ')| >= 3
    requires ParseInt(Split(left, ' ')[|Split(left, ' ')| - 1]).Some? && ParseInt(b).Some?
    ensures ConvertFractionStr(left + "/" + b) ==
      Construct(ParseInt(Split(left, ' ')[|Split(left, ' ')| - 1]).value, ParseInt(b).value)
  {
    ConvertTwoSides(left, b);
    ReadSidesManyPieces(left, b);
  }

  lemma ReadSidesManyPieces(left: string, right: string)
    requires |Split(left, ' ')| >= 3
    requires ParseInt(Split(left, ' ')[|Split(left, ' ')| - 1]).Some? && ParseInt(right).Some?
    ensures ReadSides(left, right) ==
      Construct(ParseInt(Split(left, ' ')[|Split(left, ' ')| - 1]).value, ParseInt(right).value)
  {
  }

  lemma ConvertTwoSides(left: string, right: string)
    requires '/' !in left && '/' !in right
    ensures ConvertFractionStr(left + "/" + right) == ReadSides(left, right)
  {
    SplitOnce(left, right, '/');
  }

  // ---------------------------------------------------------------------
  // What the parser rejects, and what escapes it

  /** A denominator `int()` rejects means "not a fraction". */
  lemma ParseBadDenominator(a: string, b: string)
    requires '/' !in a && '/' !in b && ParseInt(b).None?
    ensures ConvertFractionStr(a + "/" + b) == Success(None)
  {
    SplitOnce(a, b, '/');
  }

  /** A numerator `int()` rejects means "not a fraction", whether it stands
      alone, after a whole part, or last of several pieces. */
  lemma ParseBadNumerator(a: string, b: string)
    requires '/' !in a && '/' !in b
    requires ParseInt(Split(a, ' ')[|Split(a, ' ')| - 1]).None?
    ensures ConvertFractionStr(a + "/" + b) == Success(None)
  {
    ConvertTwoSides(a, b);
  }

  /** A whole part `int()` rejects means "not a fraction". */
  lemma ParseBadWholePart(w: string, a: string, b: string)
    requires '/' !in w && '/' !in a && '/' !in b && ' ' !in w && ' ' !in a
    requires ParseInt(w).None?
    ensures ConvertFractionStr(w + " " + a + "/" + b) == Success(None)
  {
    var left := w + " " + a;
    assert w + " " + a + "/" + b == left + "/" + b;
    SplitOnce(left, b, '/');
    assert left == w + [' '] + a;
    SplitOnce(w, a, ' ');
  }

  /** A zero denominator or a zero numerator is not caught: the constructor's
      division by zero escapes the parser. */
  lemma ParseZeroEscapes(a: string, b: string)
    requires '/' !in a && '/' !in b && ' ' !in a
    requires ParseInt(a).Some? && ParseInt(b).Some?
    requires ParseInt(a).value == 0 || ParseInt(b).value == 0
    ensures ConvertFractionStr(a + "/" + b) == Failure(ZeroDivision)
  {
    ParseSimpleFraction(a, b);
  }

  // ---------------------------------------------------------------------
  // Round trip

  /** Parsing the text form of a reduced fraction gives the fraction back. */
  lemma ParseFormat(f: Fraction)
    requires InLowestTerms(f)
    ensures ConvertFractionStr(Format(f)) == Success(Some(f))
  {
    var a, b := IntToString(f.num), IntToString(f.den);
    ParseIntToString(f.num);
    ParseIntToString(f.den);
    ParseSimpleFraction(a, b);
    NewFractionIdempotent(f);
  }
}

=== FILE: scenarios.dfy ===
/** Worked inputs for the parser and the arithmetic, each derived from the
    general lemmas. */
module Scenarios {
  import opened Wrappers
  import opened NumberTheory
  import opened Text
  import opened Fractions
  import opened Parser

  lemma ParseIntDigits(s: string, n: nat)
    requires IsDecimal(s) && n == DecimalValue(s)
    ensures ParseInt(s) == Some(n)
  {
  }

  /** "3/4" is three quarters. */
  lemma ThreeQuarters()
    ensures ConvertFractionStr("3/4") == Success(Some(Fraction(3, 4)))
  {
    ParseIntDigits("3", 3);
    ParseIntDigits("4", 4);
    assert "3" + "/" + "4" == "3/4";
    ParseSimpleFraction("3", "4");
    assert Gcd(3, 4) == 1;
    NewFractionIdempotent(Fraction(3, 4));
  }

  /** "1 2/3" is one and two thirds, five thirds. */
  lemma OneAndTwoThirds()
    ensures ConvertFractionStr("1 2/3") == Success(Some(Fraction(5, 3)))
  {
    MixedRead();
    assert Gcd(5, 3) == 1;
    NewFractionIdempotent(Fraction(5, 3));
  }

  lemma MixedRead()
    ensures ConvertFractionStr("1 2/3") == Construct(5, 3)
  {
    MixedDigits();
    ParseMixedNumber("1", "2", "3");
    MixedText();
  }

  lemma MixedDigits()
    ensures ParseInt("1") == Some(1) && ParseInt("2") == Some(2) && ParseInt("3") == Some(3)
  {
    ParseIntDigits("1", 1);
    ParseIntDigits("2", 2);
    ParseIntDigits("3", 3);
  }

  lemma MixedText()
    ensures "1" + " " + "2" + "/" + "3" == "1 2/3"
  {
  }

  /** "4/8" is reduced to one half. */
  lemma FourEighths()
    ensures ConvertFractionStr("4/8") == Success(Some(Fraction(1, 2)))
  {
    ParseIntDigits("4", 4);
    ParseIntDigits("8", 8);
    assert "4" + "/" + "8" == "4/8";
    ParseSimpleFraction("4", "8");
    NewFractionScaled(1, 2, 4);
    assert Gcd(1, 2) == 1;
    NewFractionIdempotent(Fraction(1, 2));
  }

  /** "abc/2" is not a fraction. */
  lemma LettersAreNotANumerator()
    ensures ConvertFractionStr("abc/2") == Success(None)
  {
    assert ParseInt("abc") == None by {
      assert !IsSpace('a') && !IsDigit('a') && 'a' != '+' && 'a' != '-';
    }
    SplitWithoutSeparator("abc", ' ');
    assert "abc" + "/" + "2" == "abc/2";
    ParseBadNumerator("abc", "2");
  }

  /** "1 x/2": a numerator `int()` rejects after a whole part is not a
      fraction either. */
  lemma MixedLetterNumerator()
    ensures ConvertFractionStr("1 x/2") == Success(None)
  {
    SplitOnce("1", "x", ' ');
    assert "1" + [' '] + "x" == "1 x";
    assert ParseInt("x") == None by {
      assert !IsSpace('x') && !IsDigit('x') && 'x' != '+' && 'x' != '-';
    }
    assert "1 x" + "/" + "2" == "1 x/2";
    ParseBadNumerator("1 x", "2");
  }

  /** Two slashes are not a fraction. */
  lemma TwoSlashes()
    ensures ConvertFractionStr("1/2/3") == Success(None)
  {
    assert CountChar("1/2/3", '/') == 2;
  }

  /** "1 2 3/4": of the three pieces before the slash only the last counts. */
  lemma ThreePiecesKeepTheLast()
    ensures ConvertFractionStr("1 2 3/4") == Success(Some(Fraction(3, 4)))
  {
    ThreePiecesRead();
    assert Gcd(3, 4) == 1;
    NewFractionIdempotent(Fraction(3, 4));
  }

  lemma ThreePiecesRead()
    ensures ConvertFractionStr("1 2 3/4") == Construct(3, 4)
  {
    ThreePieces();
    ParseIntDigits("3", 3);
    ParseIntDigits("4", 4);
    ParseIgnoresLeadingPieces("1 2 3", "4");
    assert "1 2 3" + "/" + "4" == "1 2 3/4";
  }

  lemma ThreePieces()
    ensures '/' !in "1 2 3" && Split("1 2 3", ' ') == ["1", "2", "3"]
  {
    assert Join(["1", "2", "3"], ' ') == "1 2 3";
    SplitJoin(["1", "2", "3"], ' ');
  }

  /** "3/ 4": `int()` ignores the space before the denominator. */
  lemma SpaceBeforeDenominator()
    ensures ConvertFractionStr("3/ 4") == Success(Some(Fraction(3, 4)))
  {
    ParseIntDigits("3", 3);
    assert Strip(" 4") == "4" by {
      assert TrimLeft(" 4") == "4";
    }
    assert "3" + "/" + " 4" == "3/ 4";
    ParseSimpleFraction("3", " 4");
    assert Gcd(3, 4) == 1;
    NewFractionIdempotent(Fraction(3, 4));
  }

  /** "2/-4" keeps the sign on the denominator: it is 1/-2, not -1/2. */
  lemma NegativeDenominatorText()
    ensures ConvertFractionStr("2/-4") == Success(Some(Fraction(1, -2)))
  {
    ParseIntDigits("2", 2);
    assert "-4"[1..] == "4";
    ParseIntDigits("4", 4);
    assert "2" + "/" + "-4" == "2/-4";
    ParseSimpleFraction("2", "-4");
    var f := Construct(2, -4).value.value;
    assert Gcd(1, -2) == 1;
    LowestTermsUnique(f, Fraction(1, -2));
  }

  /** "3/0" raises instead of returning "not a fraction". */
  lemma ZeroDenominatorRaises()
    ensures ConvertFractionStr("3/0") == Failure(ZeroDivision)
  {
    ParseIntDigits("3", 3);
    ParseIntDigits("0", 0);
    assert "3" + "/" + "0" == "3/0";
    ParseZeroEscapes("3", "0");
  }

  /** One half plus one third is five sixths. */
  lemma HalfPlusThird()
    ensures AddFraction(Fraction(1, 2), Fraction(1, 3)).Success?
    ensures AddFraction(Fraction(1, 2), Fraction(1, 3)).value.result == Fraction(5, 6)
  {
    var r := AddFraction(Fraction(1, 2), Fraction(1, 3));
    assert Gcd(5, 6) == 1;
    LowestTermsUnique(r.value.result, Fraction(5, 6));
  }

  /** One half divided by two is one quarter. */
  lemma HalfOverTwo()
    ensures DivFraction(Fraction(1, 2), Fraction(2, 1)) == Success(Fraction(1, 4))
  {
    assert Gcd(2, 4) == 2;
  }

  /** A negative denominator survives an addition on the result side only:
      the left operand comes back with the sign on its numerator. */
  lemma NegativeDenominatorOperand()
    ensures AddFraction(Fraction(1, -2), Fraction(1, 3)).Success?
    ensures AddFraction(Fraction(1, -2), Fraction(1, 3)).value
      == Combined(Fraction(-1, 6), Fraction(-1, 2), Fraction(1, 3))
  {
    assert Gcd(1, -2) == 1 && Gcd(1, 3) == 1;
    var r := AddFraction(Fraction(1, -2), Fraction(1, 3));
    CombineRestoresOperands(Fraction(1, -2), Fraction(1, 3), false);
    assert Gcd(-1, 6) == 1;
    LowestTermsUnique(r.value.result, Fraction(-1, 6));
  }
}

=== FILE: text.dfy ===
/** The string primitives the fraction parser relies on: Python's
    `str.split(sep)` with an explicit one-character separator, `int()` on a
    decimal literal, and `str()` of an integer. */
module Text {
  import opened Wrappers

  // ---------------------------------------------------------------------
  // Splitting on a separator

  function CountChar(s: string, c: char): (n: nat) {
    if |s| == 0 then 0 else (if s[0] == c then 1 else 0) + CountChar(s[1..], c)
  }

  /** The pieces joined back together with the separator between them. */
  function Join(parts: seq<string>, sep: char): (s: string)
    requires |parts| >= 1
  {
    if |parts| == 1 then parts[0] else parts[0] + [sep] + Join(parts[1..], sep)
  }

  /** `s.split(sep)`: the maximal runs between separators, including empty
      ones at either end or between two adjacent separators. */
  function Split(s: string, sep: char): (parts: seq<string>)
    ensures |parts| == CountChar(s, sep) + 1
    ensures forall i :: 0 <= i < |parts| ==> sep !in parts[i]
  {
    if |s| == 0 then [""]
    else
      var rest := Split(s[1..], sep);
      if s[0] == sep then [""] + rest
      else [[s[0]] + rest[0]] + rest[1..]
  }

  /** Splitting and joining are inverse: joining the pieces of a split gives
      back the string, and splitting a join of separator-free pieces gives
      back the pieces. */
  lemma {:induction false} JoinSplit(s: string, sep: char)
    ensures Join(Split(s, sep), sep) == s
    decreases |s|
  {
    if |s| > 0 {
      var rest := Split(s[1..], sep);
      JoinSplit(s[1..], sep);
      if s[0] == sep {
        assert Split(s, sep)[1..] == rest;
      } else {
        JoinHead(s[0], rest, sep);
      }
    }
  }

  lemma JoinHead(c: char, parts: seq<string>, sep: char)
    requires |parts| >= 1
    ensures Join([[c] + parts[0]] + parts[1..], sep) == [c] + Join(parts, sep)
  {
    var ps := [[c] + parts[0]] + parts[1..];
    if |parts| > 1 {
      assert ps[1..] == parts[1..];
    }
  }

  lemma {:induction false} SplitJoin(parts: seq<string>, sep: char)
    requires |parts| >= 1
    requires forall i :: 0 <= i < |parts| ==> sep !in parts[i]
    ensures Split(Join(parts, sep), sep) == parts
    decreases |parts|, |parts[0]|
  {
    var p := parts[0];
    if |p| == 0 {
      if |parts| > 1 {
        var s := Join(parts, sep);
        assert s == [sep] + Join(parts[1..], sep);
        assert s[1..] == Join(parts[1..], sep);
        SplitJoin(parts[1..], sep);
        assert parts == [""] + parts[1..];
      }
    } else {
      var tail := [p[1..]] + parts[1..];
      assert Join(parts, sep) == [p[0]] + Join(tail, sep) by {
        if |parts| > 1 {
          assert tail[1..] == parts[1..];
          assert Join(tail, sep) == p[1..] + [sep] + Join(parts[1..], sep);
        }
        assert p == [p[0]] + p[1..];
      }
      assert forall i :: 0 <= i < |tail| ==> sep !in tail[i] by {
        forall i | 0 <= i < |tail|
          ensures sep !in tail[i]
        {
          if i > 0 {
            assert tail[i] == parts[i];
          }
        }
      }
      SplitJoin(tail, sep);
      assert p[0] != sep by {
        assert p[0] in parts[0];
      }
      var s := Join(parts, sep);
      assert s[1..] == Join(tail, sep);
      assert tail[0] == p[1..] && tail[1..] == parts[1..];
      assert [p[0]] + p[1..] == p;
      assert parts == [p] + parts[1..];
      assert parts == [[p[0]] + tail[0]] + tail[1..];
    }
  }

  /** A string without the separator splits into itself alone. */
  lemma SplitWithoutSeparator(s: string, sep: char)
    requires sep !in s
    ensures Split(s, sep) == [s]
  {
    SplitJoin([s], sep);
  }

  /** A string with the separator once splits into the two sides. */
  lemma SplitOnce(a: string, b: string, sep: char)
    requires sep !in a && sep !in b
    ensures Split(a + [sep] + b, sep) == [a, b]
  {
    assert Join([a, b], sep) == a + [sep] + b;
    SplitJoin([a, b], sep);
  }

  // ---------------------------------------------------------------------
  // Integers as text

  /** The characters Python's `int()` ignores around a literal. */
  predicate IsSpace(c: char) {
    c == ' ' || c == '\t' || c == '\n' || c == '\r' || c == '\U{0B}' || c == '\U{0C}'
  }

  function TrimLeft(s: string): (t: string) {
    if |s| > 0 && IsSpace(s[0]) then TrimLeft(s[1..]) else s
  }

  function TrimRight(s: string): (t: string) {
    if |s| > 0 && IsSpace(s[|s| - 1]) then TrimRight(s[..|s| - 1]) else s
  }

  function Strip(s: string): (t: string) {
    TrimRight(TrimLeft(s))
  }

  predicate IsDigit(c: char) {
    '0' <= c <= '9'
  }

  /** One or more decimal digits. */
  predicate IsDecimal(s: string) {
    |s| > 0 && forall i :: 0 <= i < |s| ==> IsDigit(s[i])
  }

  function DigitValue(c: char): (d: nat)
    requires IsDigit(c)
  {
    (c as int - '0' as int) as nat
  }

  function DigitChar(d: nat): (c: char)
    requires d < 10
    ensures IsDigit(c) && DigitValue(c) == d
  {
    ('0' as int + d) as char
  }

  /** The number a string of decimal digits denotes. */
  function DecimalValue(s: string): (n: nat)
    requires forall i :: 0 <= i < |s| ==> IsDigit(s[i])
  {
    if |s| == 0 then 0 else DecimalValue(s[..|s| - 1]) * 10 + DigitValue(s[|s| - 1])
  }

  /** Stripping removes only whitespace: every other character of the
      string survives it. */
  lemma {:induction false} TrimLeftKeeps(s: string)
    ensures forall i :: 0 <= i < |s| ==> IsSpace(s[i]) || s[i] in TrimLeft(s)
    decreases |s|
  {
    if |s| > 0 && IsSpace(s[0]) {
      TrimLeftKeeps(s[1..]);
      forall i | 0 < i < |s|
        ensures IsSpace(s[i]) || s[i] in TrimLeft(s)
      {
        assert s[i] == s[1..][i - 1];
      }
    }
  }

  lemma {:induction false} TrimRightKeeps(s: string)
    ensures forall i :: 0 <= i < |s| ==> IsSpace(s[i]) || s[i] in TrimRight(s)
    decreases |s|
  {
    if |s| > 0 && IsSpace(s[|s| - 1]) {
      var t := s[..|s| - 1];
      TrimRightKeeps(t);
      forall i | 0 <= i < |s| - 1
        ensures IsSpace(s[i]) || s[i] in TrimRight(s)
      {
        assert s[i] == t[i];
      }
    }
  }

  lemma StripKeeps(s: string)
    ensures forall i :: 0 <= i < |s| ==> IsSpace(s[i]) || s[i] in Strip(s)
  {
    TrimLeftKeeps(s);
    TrimRightKeeps(TrimLeft(s));
  }

  /** What stripping leaves of a literal, and which characters a string
      holding one can contain. */
  lemma LiteralCharacters(s: string)
    ensures IsDecimal(s) ==> Strip(s) == s
    ensures |s| > 1 && s[0] == '-' && IsDecimal(s[1..]) ==> Strip(s) == s
    ensures IsIntLiteral(Strip(s)) ==> forall i :: 0 <= i < |s| ==>
      IsSpace(s[i]) || IsDigit(s[i]) || s[i] == '+' || s[i] == '-'
  {
    StripKeeps(s);
    assert IsDecimal(s) ==> TrimLeft(s) == s;
    assert |s| > 1 && s[0] == '-' && IsDecimal(s[1..]) ==> TrimLeft(s) == s && TrimRight(s) == s;
    var t := Strip(s);
    forall c | c in t && IsIntLiteral(t)
      ensures IsDigit(c) || c == '+' || c == '-'
    {
      var k :| 0 <= k < |t| && t[k] == c;
      assert k > 0 && !IsDecimal(t) ==> c == t[1..][k - 1];
    }
  }

  /** An integer literal: an optional sign and one or more digits. */
  predicate IsIntLiteral(t: string) {
    IsDecimal(t) || (|t| > 0 && (t[0] == '+' || t[0] == '-') && IsDecimal(t[1..]))
  }

  /** `int(s)` on a decimal literal: surrounding whitespace is ignored, an
      optional sign is followed by one or more digits, and anything else is
      a ValueError, here `None`. */
  function ParseInt(s: string): (r: Option<int>)
    ensures r.Some? <==> IsIntLiteral(Strip(s))
    ensures r.Some? ==> forall i :: 0 <= i < |s| ==>
      IsSpace(s[i]) || IsDigit(s[i]) || s[i] == '+' || s[i] == '-'
    ensures IsDecimal(s) ==> r == Some(DecimalValue(s))
    ensures |s| > 1 && s[0] == '-' && IsDecimal(s[1..]) ==> r == Some(-(DecimalValue(s[1..]) as int))
    ensures IsDecimal(Strip(s)) ==> r == Some(DecimalValue(Strip(s)))
    ensures |Strip(s)| > 1 && Strip(s)[0] == '+' && IsDecimal(Strip(s)[1..]) ==>
      r == Some(DecimalValue(Strip(s)[1..]))
    ensures |Strip(s)| > 1 && Strip(s)[0] == '-' && IsDecimal(Strip(s)[1..]) ==>
      r == Some(-(DecimalValue(Strip(s)[1..]) as int))
  {
    LiteralCharacters(s);
    var t := Strip(s);
    if |t| > 0 && (t[0] == '+' || t[0] == '-') then
      if IsDecimal(t[1..]) then
        Some(if t[0] == '-' then -(DecimalValue(t[1..]) as int) else DecimalValue(t[1..]))
      else None
    else if IsDecimal(t) then Some(DecimalValue(t))
    else None
  }

  /** `str(n)` for a natural number: its decimal digits, no leading zeros. */
  function NatToString(n: nat): (s: string)
    ensures IsDecimal(s)
    ensures DecimalValue(s) == n
  {
    if n < 10 then [DigitChar(n)]
    else
      var s := NatToString(n / 10) + [DigitChar(n % 10)];
      assert s[..|s| - 1] == NatToString(n / 10);
      s
  }

  /** `str(i)`: a minus sign before the digits of a negative number. */
  function IntToString(i: int): (s: string)
    ensures |s| > 0 && '/' !in s && ' ' !in s
    ensures !IsSpace(s[0]) && !IsSpace(s[|s| - 1])
  {
    var digits := NatToString(if i < 0 then -i else i);
    assert forall c :: c in digits ==> IsDigit(c) by {
      forall c | c in digits
        ensures IsDigit(c)
      {
        var k :| 0 <= k < |digits| && digits[k] == c;
      }
    }
    if i < 0 then "-" + digits else digits
  }

  /** Reading back what `str` writes gives the same integer. */
  lemma ParseIntToString(i: int)
    ensures ParseInt(IntToString(i)) == Some(i)
  {
    var s := IntToString(i);
    assert Strip(s) == s by {
      assert TrimLeft(s) == s;
    }
    var digits := NatToString(if i < 0 then -i else i);
    if i < 0 {
      assert s[1..] == digits;
    } else {
      assert IsDigit(s[0]);
    }
  }
}

=== FILE: wrappers.dfy ===
/** Failure-compatible result types: `Option` for "no value" answers and
    `Result` for operations that can fail with an error. */
module Wrappers {

  datatype Option<+T> = None | Some(value: T)

  datatype Result<+T, +E> = Success(value: T) | Failure(error: E) {

    predicate IsFailure() {
      Failure?
    }

    function PropagateFailure<U>(): Result<U, E>
      requires Failure?
    {
      Failure(error)
    }

    function Extract(): T
      requires Success?
    {
      value
    }
  }
}
